=== FILE: README.md ===
# Contract review: from detector output to a verdict

This project models, in Dafny, the decision logic of a browser tool that
reviews PDF contracts. An object detector finds objects on each rendered
page. The tool maps some detector labels to a handwritten signature or an
annotation and drops the rest; the types also declare electronic
signature and modification, which the mapping never produces. It then
sorts the document into one of five cases and writes a justification,
citing pages in cases 2 to 4. The model covers:

- the closed types and the case-description table (`src/types/analysis.ts`),
  in module `AnalysisTypes`;
- the label mapping (`mapLabelToDetectionType`), in `LabelMapping`;
- the conversion of raw detector records into detections (the loop body of
  `analyzePage`), in `Normalization`;
- the classifier (`classifyContract`), in `Classifier`;
- the overall-confidence formula of `analyzePDF`, in `Confidence`;
- the service itself, in `AnalysisService`. The class
  `RealAIAnalysisService` holds the lazily loaded `detector` field.
  `InitializeModel` sets that field as the specification function
  `AfterInitialize` says. `AnalyzePage` and `AnalyzePDF` each run a loop and are proved
  equal to the specification functions `PageDetections` and
  `AllDetections`.

The detector and the PDF renderer are external. Each is a parameter:

- a `Detector` wraps a total function from a page image to either its raw
  records or a failure;
- a `LoadOutcome` is the result of one attempt to load the model;
- a `RenderOutcome` is what the renderer produced.

Scores and box corners are `real`. `Math.round` is `floor(x + 0.5)`.

Three behaviours of the code shape the model:

- **Case 4 page order.** The case-4 justification lists the annotated
  pages in the order in which they first occur: `[...new Set(pages)]`
  removes duplicates and does not sort (`Classifier.Distinct`;
  `AnnotationPagesExample` gives pages `[4, 1]` for annotations on pages
  4, 1, 4).
- **No defaults for missing fields.** The code reads `label`, `box` and
  `score` as they are, without substituting defaults, so raw records are
  typed here.
- **Failures throw.** A run that cannot load the model or convert the
  document throws; the code never produces the status `error`. Here such a
  run is a `Failure` result.

## Model

| member | source | states |
|---|---|---|
| AnalysisTypes.CaseDescription | src/types/analysis.ts:35-41 | the table gives a non-empty description to every case 1..5, so the lookup at classification time is total |
| AnalysisTypes.CaseOfDescription | src/types/analysis.ts:35-41 | reading the table backwards: a found case has exactly that description, and no case has a description that is not found |
| AnalysisTypes.DescriptionDeterminesCase | src/types/analysis.ts:36-40 | looking up a case's description and reading it back gives the same case, so the description determines the case |
| LabelMapping.ToLower | src/services/realAIAnalysisService.ts:109 | the lower-cased label has the same length, and each character is the lower-case form of the input character |
| LabelMapping.Includes | src/services/realAIAnalysisService.ts:112-115 | `includes` is true iff the keyword starts at some position of the label |
| LabelMapping.MapLabelToDetectionType | src/services/realAIAnalysisService.ts:108-122 | handwritten signature iff the lower-cased label contains "person" or "hand"; annotation iff it does not but contains "book" or "paper"; nothing iff it contains none of the four; never electronic signature or modification |
| LabelMapping.ToLowerIdempotent | src/services/realAIAnalysisService.ts:109 | lower-casing twice equals lower-casing once |
| LabelMapping.MapLabelIsCaseInsensitive | src/services/realAIAnalysisService.ts:108-112 | a label and its lower-cased form map to the same kind |
| LabelMapping.PersonIsHandwritten | src/services/realAIAnalysisService.ts:112-113 | "person" maps to a handwritten signature |
| LabelMapping.HandbagIsHandwritten | src/services/realAIAnalysisService.ts:112-113 | "Handbag" maps to a handwritten signature, because the match is on substrings and ignores case |
| LabelMapping.BookIsAnnotation | src/services/realAIAnalysisService.ts:115-116 | "book" maps to an annotation |
| LabelMapping.DroppedWithoutKeywordInitials | src/services/realAIAnalysisService.ts:119-121 | a label with no lower-cased 'p', 'h' or 'b' maps to nothing |
| LabelMapping.UnknownWidgetIsDropped | src/services/realAIAnalysisService.ts:119-121 | "unknown_widget" maps to nothing, so it yields no detection |
| Normalization.Round | src/services/realAIAnalysisService.ts:90-93 | `Math.round`: the result is the integer within half a unit of the input, with halves rounded up |
| Normalization.RoundMonotone | src/services/realAIAnalysisService.ts:90-93 | rounding preserves order |
| Normalization.NormalizeDetection | src/services/realAIAnalysisService.ts:84-97 | a record is kept iff its label maps to a kind. The kept detection has that kind, the current page number, the score as confidence, x/y rounded from xmin/ymin, and width/height rounded from xmax-xmin and ymax-ymin |
| Normalization.NormalizedExtent | src/services/realAIAnalysisService.ts:92-93 | the rounded width and height are each within half a pixel of the box's width and height, and are non-negative for a well-formed box |
| Normalization.NormalizeAll | src/services/realAIAnalysisService.ts:80-99 | a page yields no more detections than raw records; each is on that page and is a handwritten signature or an annotation; a detection is in the list iff it is the normalisation of one of the page's records |
| Normalization.DroppedRecordIsSkipped | src/services/realAIAnalysisService.ts:84-85 | a record whose label maps to no kind contributes nothing, and the records before and after it are still kept |
| Normalization.NormalizeAllAppend | src/services/realAIAnalysisService.ts:82-99 | normalising records a then b gives a's detections followed by b's, so detector order is preserved |
| Classifier.HasType | src/services/realAIAnalysisService.ts:125-128 | `some`: true iff some detection in the list has the kind |
| Classifier.FindFirst | src/services/realAIAnalysisService.ts:138 | `find`: absent iff no detection has the kind; otherwise the detection at the first position holding that kind |
| Classifier.PagesOf | src/services/realAIAnalysisService.ts:146 | `filter` then `map`: a page is listed iff some detection of the kind lies on it |
| Classifier.PagesOfAppend | src/services/realAIAnalysisService.ts:146 | the pages of a concatenation are the pages of the first part followed by those of the second, so the list keeps detection order with one entry per matching detection |
| Classifier.Distinct | src/services/realAIAnalysisService.ts:147 | `[...new Set(pages)]`: no value twice, and exactly the values of the input |
| Classifier.DistinctKeepsFirstOccurrenceOrder | src/services/realAIAnalysisService.ts:147 | the de-duplicated pages appear in the order of their first occurrence in the input |
| Classifier.CaseOf | src/services/realAIAnalysisService.ts:133-151 | the precedence chain partitions the 16 flag combinations: case 1 iff no flag; 2 iff handwritten and no annotation; 3 iff electronic, no annotation, no handwritten; 4 iff annotation, no signature; 5 otherwise |
| Classifier.ClassifyContract | src/services/realAIAnalysisService.ts:124-162 | each returned flag is true iff some detection has that kind; the case is the chain applied to those flags; the description is the table entry of the case |
| Classifier.ClassifyEmpty | src/services/realAIAnalysisService.ts:133-135 | no detections gives case 1, the "nothing detected" justification and every flag false |
| Classifier.CaseOneIffNoDetections | src/services/realAIAnalysisService.ts:133-135 | case 1 iff the detection list is empty |
| Classifier.JustificationMatchesCase | src/services/realAIAnalysisService.ts:133-151 | the justification's form is the one of the selected case, in both directions; cases 1 and 5 carry the static texts |
| Classifier.CaseTwoCitesFirstHandwrittenPage | src/services/realAIAnalysisService.ts:136-139 | case 2 cites the page of the first handwritten signature in list order |
| Classifier.CaseThreeCitesFirstElectronicPage | src/services/realAIAnalysisService.ts:140-143 | case 3 cites the page of the first electronic signature in list order |
| Classifier.CaseFourListsAnnotatedPages | src/services/realAIAnalysisService.ts:144-147 | case 4 lists every annotated page exactly once, and no other page, in first-occurrence order |
| Classifier.Kinds | src/services/realAIAnalysisService.ts:125-128 | a kind is in the set iff some detection has it |
| Classifier.VerdictDependsOnlyOnKinds | src/services/realAIAnalysisService.ts:125-135 | lists with the same set of kinds get the same flags, case and description, whatever their order, pages, coordinates or confidences |
| Classifier.VerdictIgnoresOrder | src/services/realAIAnalysisService.ts:125-135 | a reordering of the detections gets the same four flags, case and description |
| Classifier.HandwrittenExample | src/services/realAIAnalysisService.ts:136-139 | one handwritten signature on page 3 gives case 2 citing page 3 |
| Classifier.ElectronicExample | src/services/realAIAnalysisService.ts:140-143 | one electronic signature on page 2 gives case 3 citing page 2 |
| Classifier.AnnotationPagesExample | src/services/realAIAnalysisService.ts:144-147 | annotations on pages 4, 1, 4 give case 4 citing pages [4, 1]: de-duplicated, not sorted |
| Classifier.SignatureAndAnnotationExample | src/services/realAIAnalysisService.ts:148-150 | a handwritten signature with an annotation gives case 5 |
| Classifier.ModificationOnlyExample | src/services/realAIAnalysisService.ts:148-150 | a modification alone gives case 5: it has no case of its own |
| Confidence.OverallConfidence | src/services/realAIAnalysisService.ts:52-54 | exactly 0.95 for no detections; otherwise the result times the count equals the sum of the scores (the mean) |
| Confidence.SumConfidence | src/services/realAIAnalysisService.ts:53 | the `reduce` starts from 0, and a single score sums to itself |
| Confidence.SumConfidenceFromFront | src/services/realAIAnalysisService.ts:53 | the left fold equals the first score plus the sum of the others, so the order of folding does not change the total |
| Confidence.SumConfidenceAppend | src/services/realAIAnalysisService.ts:53 | the score sum of a concatenation is the sum of the parts' sums |
| Confidence.SumConfidenceBounds | src/services/realAIAnalysisService.ts:53 | scores within [lo, hi] sum to between count*lo and count*hi |
| Confidence.OverallConfidenceWithinBounds | src/services/realAIAnalysisService.ts:52-54 | the mean of scores within [lo, hi] is within [lo, hi], so scores in [0, 1] give a confidence in [0, 1] |
| Confidence.OverallConfidenceExamples | src/services/realAIAnalysisService.ts:52-54 | no detections give 0.95; scores 0.8 and 0.6 give 0.7 |
| AnalysisService.ConvertPdfToImages | src/services/pdfToImageService.ts:76-80 | conversion succeeds iff the renderer produced a non-empty page list, which it returns unchanged; otherwise it fails |
| AnalysisService.AfterInitialize | src/services/realAIAnalysisService.ts:9-28 | a loaded detector is kept; no detector remains only if both the WebGPU and the CPU loads fail |
| AnalysisService.InitializeIsIdempotent | src/services/realAIAnalysisService.ts:10 | once a detector is loaded, initialising again changes nothing |
| AnalysisService.PageDetections | src/services/realAIAnalysisService.ts:72-105 | a page whose detection fails contributes no detections; every detection of a page carries that page's number |
| AnalysisService.AllDetections | src/services/realAIAnalysisService.ts:41-46 | every detection carries the number of one of the analysed pages |
| AnalysisService.AllDetectionsAppend | src/services/realAIAnalysisService.ts:43-46 | the detections of pages a then b are a's detections followed by b's |
| AnalysisService.FailedPageIsSkipped | src/services/realAIAnalysisService.ts:102-105 | a page whose detection fails contributes nothing, and the pages after it are still analysed |
| AnalysisService.MiddlePageFailureExample | src/services/realAIAnalysisService.ts:43-46 | with three pages and the second failing, the result holds the first page's detections then the third's |
| AnalysisService.DetectionsFollowPageOrder | src/services/realAIAnalysisService.ts:43-46 | with page numbers increasing, the detection list is ordered by page |
| AnalysisService.RealAIAnalysisService.constructor | src/services/realAIAnalysisService.ts:7 | the service starts with no detector |
| AnalysisService.RealAIAnalysisService.InitializeModel | src/services/realAIAnalysisService.ts:9-28 | the new detector is `AfterInitialize` of the old one; success iff a detector is loaded |
| AnalysisService.RealAIAnalysisService.AnalyzePage | src/services/realAIAnalysisService.ts:67-106 | fails (outside the try block) when no detector is loaded; otherwise returns `PageDetections` of the page, built by a loop whose invariant is the normalisation of the records seen so far |
| AnalysisService.RealAIAnalysisService.AnalyzePDF | src/services/realAIAnalysisService.ts:30-65 | fails if the model cannot load, then if the document cannot be converted. Otherwise the result is completed, with the concatenated page detections, their classification and their overall confidence |

## Left out

- The run identifier and the timestamp (`Date.now()`, `new Date()`) are not modelled. The file name is a plain input.
- The display text of a detection (the `description` built from the label and the percentage score) is not modelled.
- The French wording of the justifications is not modelled. The `Justification` datatype keeps only the page or pages each one cites.
- Model loading and inference are external: the `pipeline(...)` calls, WebGPU versus CPU, and `canvas.toDataURL`. Load attempts and detector answers are parameters, and a `DetectFailed` answer covers any exception inside the page's try block.
- PDF rendering (pdf.js, canvases, the worker set-up) is external. The renderer's output is the `RenderOutcome` parameter.
- LabelMapping.ToLower: lower-cases only the ASCII letters A-Z. JavaScript's `toLowerCase` covers all of Unicode, and some non-ASCII capitals (the Kelvin sign, for one) lower-case to ASCII keyword letters.
- Normalization.Round: exact on reals. IEEE-754 rounding in the coordinates, in the score sum and in the division of the mean is not modelled.
- Normalization.NormalizeDetection: raw records are typed, so a record missing `label`, `box` or `score` cannot be expressed. In the code a missing `label` always throws. A missing `box` throws only when the label maps to a kind; otherwise the record is dropped like any other unmapped one. A throw inside the loop empties the whole page, including the detections already collected. A missing `score` on a kept record does not throw: the detection gets an `undefined` confidence, and the overall mean becomes `NaN`.
- Asynchrony and concurrency are not modelled. The pages are analysed in sequence, as the code does; concurrent calls sharing the static detector are not.
- The fallback wrapper that replaces a failed analysis by a simulated case-1 result with confidence 0.5 (`src/services/aiAnalysisService.ts`) is not part of this model. Failures surface here as `Failure` results. The statuses `Analyzing` and `Error` are declared but never produced, as in the code.
- Logging and the diagnostic panel are not part of this model. Neither are the React components or the build configuration.

=== FILE: analysis_service.dfy ===
/** `RealAIAnalysisService`: the lazily loaded detector, the per-page
    detection step and the whole-document pipeline that feeds the
    classifier and the confidence aggregate. */
module AnalysisService {
  import opened Wrappers
  import opened AnalysisTypes
  import opened Normalization
  import opened Classifier
  import opened Confidence

  /** A rendered page: its 1-based number, an opaque handle on its canvas
      and its size in pixels. */
  datatype PageImage = PageImage(pageNumber: int, canvas: nat, width: real, height: real)

  /** What one detector call yields for a page image: its raw records, or a
      failure (exporting the canvas or running inference threw). */
  datatype DetectOutcome = Detected(results: seq<RawDetection>) | DetectFailed

  /** A loaded object-detection model, seen only through what it answers. */
  datatype Detector = Detector(detect: PageImage -> DetectOutcome)

  /** One attempt to load the model. */
  datatype LoadOutcome = Loaded(detector: Detector) | LoadFailed

  /** What the PDF renderer produced: the pages it could render, or a
      failure to read the document at all. */
  datatype RenderOutcome = Rendered(pages: seq<PageImage>) | RenderFailed

  /** The ways a whole-document analysis fails. */
  datatype AnalysisError =
    | ModelLoadFailed      // both the WebGPU and the CPU load threw
    | ModelNotInitialized  // a page was analysed with no detector loaded
    | PdfConversionFailed  // the document could not be read or no page rendered

  /** The renderer's contract as the pipeline sees it: failure, or a
      non-empty page sequence (zero rendered pages is a failure). */
  function ConvertPdfToImages(render: RenderOutcome): (r: Result<seq<PageImage>, AnalysisError>)
    ensures r.Success? <==> render.Rendered? && |render.pages| > 0
    ensures r.Success? ==> r.value == render.pages
    ensures r.Failure? ==> r.error == PdfConversionFailed
  {
    match render
    case RenderFailed => Failure(PdfConversionFailed)
    case Rendered(pages) => if |pages| == 0 then Failure(PdfConversionFailed) else Success(pages)
  }

  /** The detector after `initializeModel`: kept when already loaded, else
      the WebGPU load, else the CPU load, else still absent. */
  function AfterInitialize(current: Option<Detector>, webgpu: LoadOutcome, cpu: LoadOutcome)
    : (r: Option<Detector>)
    ensures current.Some? ==> r == current
    ensures r.None? <==> current.None? && webgpu.LoadFailed? && cpu.LoadFailed?
  {
    if current.Some? then current
    else if webgpu.Loaded? then Some(webgpu.detector)
    else if cpu.Loaded? then Some(cpu.detector)
    else None
  }

  /** Once a detector is loaded, further initialisation is a no-op whatever
      the loads would yield. */
  lemma InitializeIsIdempotent(current: Option<Detector>, w1: LoadOutcome, c1: LoadOutcome,
                               w2: LoadOutcome, c2: LoadOutcome)
    requires AfterInitialize(current, w1, c1).Some?
    ensures AfterInitialize(AfterInitialize(current, w1, c1), w2, c2)
         == AfterInitialize(current, w1, c1)
  {
  }

  /** The detections one page contributes: none when detection failed,
      otherwise its recognised records in detector order. */
  function PageDetections(det: Detector, page: PageImage): (r: seq<Detection>)
    ensures det.detect(page).DetectFailed? ==> r == []
    ensures forall d :: d in r ==> d.page == page.pageNumber
  {
    match det.detect(page)
    case DetectFailed => []
    case Detected(results) => NormalizeAll(results, page.pageNumber)
  }

  /** The detections of all pages, concatenated in page order. */
  function AllDetections(det: Detector, pages: seq<PageImage>): (r: seq<Detection>)
    ensures forall d :: d in r ==> exists k :: 0 <= k < |pages| && d.page == pages[k].pageNumber
  {
    if |pages| == 0 then []
    else
      var n := |pages| - 1;
      var prefix := AllDetections(det, pages[..n]);
      assert forall k :: 0 <= k < n ==> pages[..n][k] == pages[k];
      prefix + PageDetections(det, pages[n])
  }

  /** Analysing a concatenation of page runs concatenates their detections. */
  lemma {:induction false} AllDetectionsAppend(det: Detector, a: seq<PageImage>, b: seq<PageImage>)
    ensures AllDetections(det, a + b) == AllDetections(det, a) + AllDetections(det, b)
    decreases |b|
  {
    if |b| == 0 {
      assert a + b == a;
    } else {
      var b' := b[..|b| - 1];
      assert (a + b)[..|a + b| - 1] == a + b';
      assert (a + b)[|a + b| - 1] == b[|b| - 1];
      AllDetectionsAppend(det, a, b');
    }
  }

  /** A page whose detection fails contributes nothing and does not stop
      the pages after it. */
  lemma FailedPageIsSkipped(det: Detector, before: seq<PageImage>, page: PageImage,
                            after: seq<PageImage>)
    requires det.detect(page).DetectFailed?
    ensures AllDetections(det, before + [page] + after)
         == AllDetections(det, before) + AllDetections(det, after)
  {
    assert [page][..0] == [];
    assert AllDetections(det, [page]) == [];
    AllDetectionsAppend(det, before, [page]);
    assert AllDetections(det, before + [page]) == AllDetections(det, before);
    AllDetectionsAppend(det, before + [page], after);
  }

  /** Three pages of which the second fails keep the detections of the
      first and the third. */
  lemma MiddlePageFailureExample(det: Detector, p1: PageImage, p2: PageImage, p3: PageImage)
    requires det.detect(p2).DetectFailed?
    ensures AllDetections(det, [p1, p2, p3]) == PageDetections(det, p1) + PageDetections(det, p3)
  {
    assert [p1, p2, p3] == [p1] + [p2] + [p3];
    FailedPageIsSkipped(det, [p1], p2, [p3]);
    assert [p1][..0] == [] && [p3][..0] == [];
    assert AllDetections(det, [p1]) == PageDetections(det, p1);
    assert AllDetections(det, [p3]) == PageDetections(det, p3);
  }

  /** The page numbers increase along the page sequence. */
  predicate IncreasingPageNumbers(pages: seq<PageImage>) {
    forall i, j :: 0 <= i < j < |pages| ==> pages[i].pageNumber < pages[j].pageNumber
  }

  /** The page numbers never decrease along the detection list. */
  predicate PageOrdered(ds: seq<Detection>) {
    forall i, j :: 0 <= i < j < |ds| ==> ds[i].page <= ds[j].page
  }

  /** An ordered list followed by detections all on one later page is ordered. */
  lemma OrderedThenOnePage(prefix: seq<Detection>, last: seq<Detection>, bound: int)
    requires PageOrdered(prefix)
    requires forall d :: d in prefix ==> d.page < bound
    requires forall d :: d in last ==> d.page == bound
    ensures PageOrdered(prefix + last)
  {
    var all := prefix + last;
    forall i, j | 0 <= i < j < |all| ensures all[i].page <= all[j].page {
      if j < |prefix| {
        assert all[i] == prefix[i] && all[j] == prefix[j];
      } else if i < |prefix| {
        assert all[i] == prefix[i] && all[i] in prefix;
        assert all[j] == last[j - |prefix|] && all[j] in last;
      } else {
        assert all[i] == last[i - |prefix|] && all[i] in last;
        assert all[j] == last[j - |prefix|] && all[j] in last;
      }
    }
  }

  /** With pages in ascending order (as the renderer numbers them), the
      detection list is ordered by page. */
  lemma {:induction false} DetectionsFollowPageOrder(det: Detector, pages: seq<PageImage>)
    requires IncreasingPageNumbers(pages)
    ensures PageOrdered(AllDetections(det, pages))
    decreases |pages|
  {
    if |pages| > 0 {
      var n := |pages| - 1;
      var init := pages[..n];
      var bound := pages[n].pageNumber;
      assert forall k :: 0 <= k < n ==> init[k] == pages[k];
      assert IncreasingPageNumbers(init);
      DetectionsFollowPageOrder(det, init);
      var prefix := AllDetections(det, init);
      forall d | d in prefix ensures d.page < bound {
        var k :| 0 <= k < n && d.page == init[k].pageNumber;
      }
      OrderedThenOnePage(prefix, PageDetections(det, pages[n]), bound);
    }
  }

  /** The service, whose one piece of state is the lazily loaded detector. */
  class RealAIAnalysisService {
    var detector: Option<Detector>

    constructor()
      ensures detector.None?
    {
      detector := None;
    }

    /** `initializeModel`: load on WebGPU, fall back to the CPU; a no-op once
        a detector is loaded. */
    method InitializeModel(webgpu: LoadOutcome, cpu: LoadOutcome) returns (ok: bool)
      modifies this
      ensures detector == AfterInitialize(old(detector), webgpu, cpu)
      ensures ok <==> detector.Some?
    {
      if detector.None? {
        match webgpu
        case Loaded(d) =>
          detector := Some(d);
        case LoadFailed =>
          match cpu
          case Loaded(d) =>
            detector := Some(d);
          case LoadFailed =>
            return false;
      }
      return true;
    }

    /** `analyzePage`: fails outright when no detector is loaded; otherwise a
        failed detection yields no detections, and a successful one yields its
        recognised records normalised, in detector order. */
    method AnalyzePage(page: PageImage) returns (r: Result<seq<Detection>, AnalysisError>)
      ensures detector.None? ==> r == Failure(ModelNotInitialized)
      ensures detector.Some? ==> r == Success(PageDetections(detector.value, page))
    {
      if detector.None? {
        return Failure(ModelNotInitialized);
      }
      match detector.value.detect(page) {
        case DetectFailed =>
          return Success([]);
        case Detected(results) =>
          var detections: seq<Detection> := [];
          var i := 0;
          while i < |results|
            invariant 0 <= i <= |results|
            invariant detections == NormalizeAll(results[..i], page.pageNumber)
          {
            assert results[..i + 1][..i] == results[..i];
            var normalized := NormalizeDetection(results[i], page.pageNumber);
            if normalized.Some? {
              detections := detections + [normalized.value];
            }
            i := i + 1;
          }
          assert results[..|results|] == results;
          return Success(detections);
      }
    }

    /** `analyzePDF`: load the detector, render the document, analyse the
        pages one after the other, then classify and aggregate. */
    method AnalyzePDF(fileName: string, webgpu: LoadOutcome, cpu: LoadOutcome,
                      render: RenderOutcome)
      returns (r: Result<AnalysisResult, AnalysisError>)
      modifies this
      ensures detector == AfterInitialize(old(detector), webgpu, cpu)
      ensures detector.None? ==> r == Failure(ModelLoadFailed)
      ensures detector.Some? && ConvertPdfToImages(render).Failure? ==>
        r == Failure(PdfConversionFailed)
      ensures detector.Some? && ConvertPdfToImages(render).Success? ==>
        var all := AllDetections(detector.value, render.pages);
        r == Success(AnalysisResult(
          fileName, Completed, ClassifyContract(all), all, OverallConfidence(all)))
    {
      var loaded := InitializeModel(webgpu, cpu);
      if !loaded {
        return Failure(ModelLoadFailed);
      }
      var converted := ConvertPdfToImages(render);
      if converted.Failure? {
        return Failure(converted.error);
      }
      var pages := converted.value;
      var det := detector.value;
      var allDetections: seq<Detection> := [];
      var i := 0;
      while i < |pages|
        invariant 0 <= i <= |pages|
        invariant detector == Some(det)
        invariant allDetections == AllDetections(det, pages[..i])
      {
        var pageDetections := AnalyzePage(pages[i]);
        assert pages[..i + 1][..i] == pages[..i];
        allDetections := allDetections + pageDetections.value;
        i := i + 1;
      }
      assert pages[..|pages|] == pages;
      var classification := ClassifyContract(allDetections);
      var confidence := OverallConfidence(allDetections);
      return Success(AnalysisResult(
        fileName, Completed, classification, allDetections, confidence));
    }
  }
}

=== FILE: analysis_types.dfy ===
/** The closed types shared by the analysis service and the UI, and the
    fixed table of case descriptions. */
module AnalysisTypes {
  import opened Wrappers

  /** The lifecycle state of an analysis (`'analyzing' | 'completed' | 'error'`). */
  datatype Status = Analyzing | Completed | Error

  /** The four detection kinds; no other label reaches the classifier. */
  datatype DetectionType =
    | HandwrittenSignature
    | ElectronicSignature
    | Annotation
    | Modification

  /** The region of a detection, in pixels of the rendered page. */
  datatype Coordinates = Coordinates(x: int, y: int, width: int, height: int)

  /** One located finding on one page. The display-only `description`
      text is not part of the model. */
  datatype Detection = Detection(
    kind: DetectionType,
    page: int,
    coordinates: Coordinates,
    confidence: real)

  /** The five document cases, `1 | 2 | 3 | 4 | 5`. */
  type CaseNumber = n: int | 1 <= n <= 5 witness 1

  /** What the justification text of a classification cites: the page of a
      signature, or the list of annotated pages. The French wording around
      these values is not modelled. */
  datatype Justification =
    | NothingDetected
    | HandwrittenSignatureOnPage(page: int)
    | ElectronicSignatureOnPage(page: int)
    | AnnotationsWithoutSignature(pages: seq<int>)
    | SignaturesAndAnnotations

  /** The verdict for a whole document. */
  datatype ContractClassification = ContractClassification(
    caseNumber: CaseNumber,
    description: string,
    justification: Justification,
    hasModifications: bool,
    hasHandwrittenSignature: bool,
    hasElectronicSignature: bool,
    hasAnnotations: bool)

  /** The document-level result. The run identifier and the timestamp are
      not modelled. */
  datatype AnalysisResult = AnalysisResult(
    fileName: string,
    status: Status,
    classification: ContractClassification,
    detections: seq<Detection>,
    confidence: real)

  /** The `CLASSIFICATION_CASES` table: one fixed description per case. */
  function CaseDescription(c: CaseNumber): (s: string)
    ensures |s| > 0
  {
    if c == 1 then "Aucune modification du document"
    else if c == 2 then "Présence d'une signature manuscrite"
    else if c == 3 then "Présence d'une signature électronique"
    else if c == 4 then "Présence d'annotations différentes d'une signature"
    else "Présence d'annotation et d'une signature"
  }

  /** Reads the table backwards: the case whose description is `s`, if any. */
  function CaseOfDescription(s: string): (r: Option<CaseNumber>)
    ensures r.Some? ==> CaseDescription(r.value) == s
    ensures r.None? ==> forall c: CaseNumber :: CaseDescription(c) != s
  {
    if s == CaseDescription(1) then Some(1)
    else if s == CaseDescription(2) then Some(2)
    else if s == CaseDescription(3) then Some(3)
    else if s == CaseDescription(4) then Some(4)
    else if s == CaseDescription(5) then Some(5)
    else None
  }

  /** The five descriptions are pairwise distinct, so reading the table
      backwards recovers the case: the description determines the case. */
  lemma DescriptionDeterminesCase(c: CaseNumber)
    ensures CaseOfDescription(CaseDescription(c)) == Some(c)
  {
  }
}

=== FILE: classifier.dfy ===
/** `classifyContract`: the verdict for a document, computed from which
    detection kinds occur among its detections. */
module Classifier {
  import opened Wrappers
  import opened AnalysisTypes

  /** `detections.some(d => d.type === t)`: scans from the front and stops at
      the first detection of kind `t`. */
  function HasType(ds: seq<Detection>, t: DetectionType): (r: bool)
    ensures r <==> exists i :: 0 <= i < |ds| && ds[i].kind == t
  {
    if |ds| == 0 then false
    else if ds[0].kind == t then true
    else
      var rest := HasType(ds[1..], t);
      assert forall i :: 1 <= i < |ds| ==> ds[i] == ds[1..][i - 1];
      rest
  }

  /** Position `i` holds the first detection of kind `t`. */
  predicate IsFirstOfKind(ds: seq<Detection>, t: DetectionType, i: int) {
    0 <= i < |ds| && ds[i].kind == t && forall j :: 0 <= j < i ==> ds[j].kind != t
  }

  /** `detections.find(d => d.type === t)`: the first detection of kind `t`. */
  function FindFirst(ds: seq<Detection>, t: DetectionType): (r: Option<Detection>)
    ensures r.None? <==> !HasType(ds, t)
    ensures r.Some? ==> exists i :: IsFirstOfKind(ds, t, i) && ds[i] == r.value
  {
    if |ds| == 0 then None
    else if ds[0].kind == t then
      assert IsFirstOfKind(ds, t, 0);
      Some(ds[0])
    else
      var rest := FindFirst(ds[1..], t);
      assert HasType(ds, t) ==> HasType(ds[1..], t) by {
        if HasType(ds, t) {
          var i :| 0 <= i < |ds| && ds[i].kind == t;
          assert ds[1..][i - 1].kind == t;
        }
      }
      assert rest.Some? ==> exists i :: IsFirstOfKind(ds, t, i) && ds[i] == rest.value by {
        if rest.Some? {
          var k :| IsFirstOfKind(ds[1..], t, k) && ds[1..][k] == rest.value;
          assert IsFirstOfKind(ds, t, k + 1);
        }
      }
      rest
  }

  /** `detections.filter(d => d.type === t).map(d => d.page)`. */
  function PagesOf(ds: seq<Detection>, t: DetectionType): (r: seq<int>)
    ensures forall p :: p in r <==> exists i :: 0 <= i < |ds| && ds[i].kind == t && ds[i].page == p
  {
    if |ds| == 0 then []
    else
      var rest := PagesOf(ds[1..], t);
      assert forall i :: 1 <= i < |ds| ==> ds[i] == ds[1..][i - 1];
      if ds[0].kind == t then [ds[0].page] + rest else rest
  }

  /** Filtering a concatenation filters each part: the pages keep the
      detections' order, one entry per matching detection. */
  lemma {:induction false} PagesOfAppend(a: seq<Detection>, b: seq<Detection>, t: DetectionType)
    ensures PagesOf(a + b, t) == PagesOf(a, t) + PagesOf(b, t)
    decreases |a|
  {
    if |a| == 0 {
      assert a + b == b;
    } else {
      assert (a + b)[0] == a[0];
      assert (a + b)[1..] == a[1..] + b;
      PagesOfAppend(a[1..], b, t);
    }
  }

  /** No value occurs twice. */
  predicate NoDuplicates(s: seq<int>) {
    forall i, j :: 0 <= i < j < |s| ==> s[i] != s[j]
  }

  /** The position of the first occurrence of `x` in `s`. */
  function FirstIndex(s: seq<int>, x: int): (r: nat)
    requires x in s
    ensures r < |s| && s[r] == x && x !in s[..r]
  {
    if s[0] == x then 0
    else
      var k := FirstIndex(s[1..], x);
      assert s[..k + 1] == [s[0]] + s[1..][..k];
      k + 1
  }

  /** `[...new Set(s)]`: the values of `s`, each once, in the order of their
      first occurrence (a JavaScript `Set` keeps insertion order). */
  function Distinct(s: seq<int>): (r: seq<int>)
    ensures NoDuplicates(r)
    ensures forall x :: x in r <==> x in s
  {
    if |s| == 0 then []
    else
      var prefix := Distinct(s[..|s| - 1]);
      assert s == s[..|s| - 1] + [s[|s| - 1]];
      if s[|s| - 1] in prefix then prefix else prefix + [s[|s| - 1]]
  }

  /** Appending a value leaves the first occurrences already present in
      place, and a new value first occurs at the end. */
  lemma FirstIndexAppend(s: seq<int>, y: int, x: int)
    requires x in s + [y]
    ensures x in s ==> FirstIndex(s + [y], x) == FirstIndex(s, x)
    ensures x !in s ==> FirstIndex(s + [y], x) == |s|
  {
    var t := s + [y];
    var r := FirstIndex(t, x);
    if x in s {
      var q := FirstIndex(s, x);
      assert t[q] == x;
      assert s[..q] == t[..q];
    } else {
      assert t[..|s|] == s;
    }
  }

  /** `Distinct` lists values in the order in which they first occur. */
  lemma {:induction false} DistinctKeepsFirstOccurrenceOrder(s: seq<int>)
    ensures forall i, j :: 0 <= i < j < |Distinct(s)| ==>
      Distinct(s)[i] in s && Distinct(s)[j] in s &&
      FirstIndex(s, Distinct(s)[i]) < FirstIndex(s, Distinct(s)[j])
    decreases |s|
  {
    if |s| > 0 {
      var n := |s| - 1;
      var init := s[..n];
      var y := s[n];
      assert s == init + [y];
      DistinctKeepsFirstOccurrenceOrder(init);
      var p := Distinct(init);
      var r := Distinct(s);
      forall x | x in p ensures x in init && FirstIndex(s, x) == FirstIndex(init, x) < n {
        FirstIndexAppend(init, y, x);
      }
      if y in p {
        assert r == p;
        forall i, j | 0 <= i < j < |r|
          ensures r[i] in s && r[j] in s && FirstIndex(s, r[i]) < FirstIndex(s, r[j])
        {
          assert FirstIndex(init, p[i]) < FirstIndex(init, p[j]);
        }
      } else {
        assert r == p + [y];
        FirstIndexAppend(init, y, y);
        forall i, j | 0 <= i < j < |r|
          ensures r[i] in s && r[j] in s && FirstIndex(s, r[i]) < FirstIndex(s, r[j])
        {
          assert r[i] == p[i];
          if j < |p| {
            assert r[j] == p[j];
            assert FirstIndex(init, p[i]) < FirstIndex(init, p[j]);
          } else {
            assert r[j] == y && FirstIndex(s, y) == n;
          }
        }
      }
    } else {
      assert Distinct(s) == [];
    }
  }

  /** The case-selection chain: the first rule that matches decides, and the
      five rules partition the sixteen flag combinations, each case holding
      exactly under its own condition. */
  function CaseOf(hasModifications: bool, hasHandwritten: bool, hasElectronic: bool,
                  hasAnnotations: bool): (c: CaseNumber)
    ensures c == 1 <==> !hasModifications && !hasHandwritten && !hasElectronic && !hasAnnotations
    ensures c == 2 <==> hasHandwritten && !hasAnnotations
    ensures c == 3 <==> hasElectronic && !hasAnnotations && !hasHandwritten
    ensures c == 4 <==> hasAnnotations && !hasHandwritten && !hasElectronic
    ensures c == 5 <==>
      (hasModifications || hasHandwritten || hasElectronic || hasAnnotations) &&
      !(hasHandwritten && !hasAnnotations) &&
      !(hasElectronic && !hasAnnotations && !hasHandwritten) &&
      !(hasAnnotations && !hasHandwritten && !hasElectronic)
  {
    if !hasModifications && !hasHandwritten && !hasElectronic && !hasAnnotations then 1
    else if hasHandwritten && !hasAnnotations then 2
    else if hasElectronic && !hasAnnotations && !hasHandwritten then 3
    else if hasAnnotations && !hasHandwritten && !hasElectronic then 4
    else 5
  }

  /** `classifyContract`. */
  function ClassifyContract(ds: seq<Detection>): (c: ContractClassification)
    ensures c.hasModifications == HasType(ds, Modification)
    ensures c.hasHandwrittenSignature == HasType(ds, HandwrittenSignature)
    ensures c.hasElectronicSignature == HasType(ds, ElectronicSignature)
    ensures c.hasAnnotations == HasType(ds, Annotation)
    ensures c.caseNumber == CaseOf(c.hasModifications, c.hasHandwrittenSignature,
                                   c.hasElectronicSignature, c.hasAnnotations)
    ensures c.description == CaseDescription(c.caseNumber)
  {
    var hasModifications := HasType(ds, Modification);
    var hasHandwritten := HasType(ds, HandwrittenSignature);
    var hasElectronic := HasType(ds, ElectronicSignature);
    var hasAnnotations := HasType(ds, Annotation);
    var caseNumber := CaseOf(hasModifications, hasHandwritten, hasElectronic, hasAnnotations);
    var justification :=
      if caseNumber == 1 then NothingDetected
      else if caseNumber == 2 then
        HandwrittenSignatureOnPage(FindFirst(ds, HandwrittenSignature).value.page)
      else if caseNumber == 3 then
        ElectronicSignatureOnPage(FindFirst(ds, ElectronicSignature).value.page)
      else if caseNumber == 4 then
        AnnotationsWithoutSignature(Distinct(PagesOf(ds, Annotation)))
      else SignaturesAndAnnotations;
    ContractClassification(
      caseNumber, CaseDescription(caseNumber), justification,
      hasModifications, hasHandwritten, hasElectronic, hasAnnotations)
  }

  /** The empty list is case 1 with the static "nothing detected"
      justification and every flag false. */
  lemma ClassifyEmpty()
    ensures ClassifyContract([]) == ContractClassification(
      1, CaseDescription(1), NothingDetected, false, false, false, false)
  {
  }

  /** Since every detection has one of the four kinds, case 1 occurs
      exactly when there are no detections at all. */
  lemma CaseOneIffNoDetections(ds: seq<Detection>)
    ensures ClassifyContract(ds).caseNumber == 1 <==> ds == []
  {
    if ds != [] {
      assert HasType(ds, ds[0].kind);
    }
  }

  /** The justification cites what the selected case is about, and cases 1
      and 5 carry the static justifications. */
  lemma JustificationMatchesCase(ds: seq<Detection>)
    ensures var c := ClassifyContract(ds);
      && (c.caseNumber == 1 <==> c.justification.NothingDetected?)
      && (c.caseNumber == 2 <==> c.justification.HandwrittenSignatureOnPage?)
      && (c.caseNumber == 3 <==> c.justification.ElectronicSignatureOnPage?)
      && (c.caseNumber == 4 <==> c.justification.AnnotationsWithoutSignature?)
      && (c.caseNumber == 5 <==> c.justification.SignaturesAndAnnotations?)
  {
  }

  /** Case 2 cites the page of the first handwritten signature in list order. */
  lemma CaseTwoCitesFirstHandwrittenPage(ds: seq<Detection>)
    requires ClassifyContract(ds).caseNumber == 2
    ensures exists i ::
      IsFirstOfKind(ds, HandwrittenSignature, i) &&
      ClassifyContract(ds).justification == HandwrittenSignatureOnPage(ds[i].page)
  {
  }

  /** Case 3 cites the page of the first electronic signature in list order. */
  lemma CaseThreeCitesFirstElectronicPage(ds: seq<Detection>)
    requires ClassifyContract(ds).caseNumber == 3
    ensures exists i ::
      IsFirstOfKind(ds, ElectronicSignature, i) &&
      ClassifyContract(ds).justification == ElectronicSignatureOnPage(ds[i].page)
  {
  }

  /** Case 4 lists every annotated page once, in the order in which the
      pages first occur among the annotations, not sorted. */
  lemma CaseFourListsAnnotatedPages(ds: seq<Detection>)
    requires ClassifyContract(ds).caseNumber == 4
    ensures ClassifyContract(ds).justification.AnnotationsWithoutSignature?
    ensures var pages := ClassifyContract(ds).justification.pages;
      var all := PagesOf(ds, Annotation);
      && NoDuplicates(pages)
      && (forall p :: p in pages <==>
            exists i :: 0 <= i < |ds| && ds[i].kind == Annotation && ds[i].page == p)
      && (forall i, j :: 0 <= i < j < |pages| ==>
            pages[i] in all && pages[j] in all &&
            FirstIndex(all, pages[i]) < FirstIndex(all, pages[j]))
  {
    DistinctKeepsFirstOccurrenceOrder(PagesOf(ds, Annotation));
  }

  /** The set of kinds that occur in a detection list. */
  function Kinds(ds: seq<Detection>): (r: set<DetectionType>)
    ensures forall t :: t in r <==> HasType(ds, t)
  {
    set i | 0 <= i < |ds| :: ds[i].kind
  }

  /** The flags, the case and the description depend on nothing but the set
      of kinds present: not on order, pages, coordinates or confidence. */
  lemma VerdictDependsOnlyOnKinds(ds1: seq<Detection>, ds2: seq<Detection>)
    requires Kinds(ds1) == Kinds(ds2)
    ensures var c1, c2 := ClassifyContract(ds1), ClassifyContract(ds2);
      && c1.hasModifications == c2.hasModifications
      && c1.hasHandwrittenSignature == c2.hasHandwrittenSignature
      && c1.hasElectronicSignature == c2.hasElectronicSignature
      && c1.hasAnnotations == c2.hasAnnotations
      && c1.caseNumber == c2.caseNumber
      && c1.description == c2.description
  {
  }

  /** In particular, reordering the detections changes neither the flags
      nor the case nor the description. */
  lemma VerdictIgnoresOrder(ds1: seq<Detection>, ds2: seq<Detection>)
    requires multiset(ds1) == multiset(ds2)
    ensures var c1, c2 := ClassifyContract(ds1), ClassifyContract(ds2);
      && c1.hasModifications == c2.hasModifications
      && c1.hasHandwrittenSignature == c2.hasHandwrittenSignature
      && c1.hasElectronicSignature == c2.hasElectronicSignature
      && c1.hasAnnotations == c2.hasAnnotations
      && c1.caseNumber == c2.caseNumber
      && c1.description == c2.description
  {
    forall t ensures t in Kinds(ds1) <==> t in Kinds(ds2) {
      if t in Kinds(ds1) {
        var i :| 0 <= i < |ds1| && ds1[i].kind == t;
        assert ds1[i] in multiset(ds2);
        var j :| 0 <= j < |ds2| && ds2[j] == ds1[i];
      }
      if t in Kinds(ds2) {
        var j :| 0 <= j < |ds2| && ds2[j].kind == t;
        assert ds2[j] in multiset(ds1);
        var i :| 0 <= i < |ds1| && ds1[i] == ds2[j];
      }
    }
    VerdictDependsOnlyOnKinds(ds1, ds2);
  }

  /** A detection of the given kind on the given page, at the origin. */
  function At(kind: DetectionType, page: int): (d: Detection)
    ensures d.kind == kind && d.page == page
  {
    Detection(kind, page, Coordinates(0, 0, 0, 0), 1.0)
  }

  /** A single handwritten signature on page 3 gives case 2 citing page 3. */
  lemma HandwrittenExample()
    ensures var c := ClassifyContract([At(HandwrittenSignature, 3)]);
      c.caseNumber == 2 && c.justification == HandwrittenSignatureOnPage(3)
  {
    var ds := [At(HandwrittenSignature, 3)];
    assert ds[0].kind == HandwrittenSignature;
  }

  /** A single electronic signature on page 2 gives case 3 citing page 2. */
  lemma ElectronicExample()
    ensures var c := ClassifyContract([At(ElectronicSignature, 2)]);
      c.caseNumber == 3 && c.justification == ElectronicSignatureOnPage(2)
  {
    var ds := [At(ElectronicSignature, 2)];
    assert ds[0].kind == ElectronicSignature;
  }

  /** Annotations on pages 4, 1, 4 cite pages 4 then 1: duplicates removed,
      first-occurrence order kept. */
  lemma AnnotationPagesExample()
    ensures var c := ClassifyContract(
        [At(Annotation, 4), At(Annotation, 1), At(Annotation, 4)]);
      c.caseNumber == 4 && c.justification == AnnotationsWithoutSignature([4, 1])
  {
    var ds := [At(Annotation, 4), At(Annotation, 1), At(Annotation, 4)];
    assert ds[0].kind == Annotation;
    assert PagesOf(ds, Annotation) == [4, 1, 4];
    assert [4, 1, 4][..2] == [4, 1];
    assert [4, 1][..1] == [4];
    assert [4][..0] == [];
  }

  /** A handwritten signature together with an annotation gives case 5. */
  lemma SignatureAndAnnotationExample()
    ensures ClassifyContract([At(HandwrittenSignature, 1), At(Annotation, 1)]).caseNumber == 5
  {
    var ds := [At(HandwrittenSignature, 1), At(Annotation, 1)];
    assert ds[0].kind == HandwrittenSignature;
    assert ds[1].kind == Annotation;
  }

  /** A modification alone falls through to case 5: no case of its own. */
  lemma ModificationOnlyExample()
    ensures ClassifyContract([At(Modification, 1)]).caseNumber == 5
  {
    var ds := [At(Modification, 1)];
    assert ds[0].kind == Modification;
  }
}

=== FILE: confidence.dfy ===
/** The overall confidence of an analysis: the mean detection score, or a
    fixed 0.95 when nothing was detected. */
module Confidence {
  import opened AnalysisTypes

  /** The confidence reported when there are no detections. */
  const NoDetectionConfidence: real := 0.95

  /** `detections.reduce((sum, d) => sum + d.confidence, 0)`: a left fold
      starting from 0. */
  function SumConfidence(ds: seq<Detection>): (r: real)
    ensures |ds| == 0 ==> r == 0.0
    ensures |ds| == 1 ==> r == ds[0].confidence
  {
    if |ds| == 0 then 0.0
    else
      assert |ds| == 1 ==> ds[..0] == [];
      SumConfidence(ds[..|ds| - 1]) + ds[|ds| - 1].confidence
  }

  /** The left fold adds up to the same total as the fold from the right:
      the first score plus the sum of the others. */
  lemma {:induction false} SumConfidenceFromFront(ds: seq<Detection>)
    requires |ds| > 0
    ensures SumConfidence(ds) == ds[0].confidence + SumConfidence(ds[1..])
  {
    assert ds == [ds[0]] + ds[1..];
    SumConfidenceAppend([ds[0]], ds[1..]);
  }

  /** The overall confidence: the mean of the scores, or the sentinel for
      an empty list. */
  function OverallConfidence(ds: seq<Detection>): (r: real)
    ensures |ds| == 0 ==> r == NoDetectionConfidence
    ensures |ds| > 0 ==> r * |ds| as real == SumConfidence(ds)
  {
    if |ds| > 0 then SumConfidence(ds) / |ds| as real else NoDetectionConfidence
  }

  /** Summing a concatenation sums each part. */
  lemma {:induction false} SumConfidenceAppend(a: seq<Detection>, b: seq<Detection>)
    ensures SumConfidence(a + b) == SumConfidence(a) + SumConfidence(b)
    decreases |b|
  {
    if |b| == 0 {
      assert a + b == a;
    } else {
      var b' := b[..|b| - 1];
      assert (a + b)[..|a + b| - 1] == a + b';
      assert (a + b)[|a + b| - 1] == b[|b| - 1];
      SumConfidenceAppend(a, b');
    }
  }

  /** Scores bounded by `lo` and `hi` have a sum between `|ds|*lo` and `|ds|*hi`. */
  lemma {:induction false} SumConfidenceBounds(ds: seq<Detection>, lo: real, hi: real)
    requires forall d :: d in ds ==> lo <= d.confidence <= hi
    ensures |ds| as real * lo <= SumConfidence(ds) <= |ds| as real * hi
    decreases |ds|
  {
    if |ds| > 0 {
      var n := |ds| - 1;
      var init := ds[..n];
      assert forall d :: d in init ==> d in ds;
      SumConfidenceBounds(init, lo, hi);
      var last := ds[n];
      assert last in ds;
      assert SumConfidence(ds) == SumConfidence(init) + last.confidence;
      var m := n as real;
      assert |ds| as real == m + 1.0;
      assert (m + 1.0) * lo == m * lo + lo;
      assert (m + 1.0) * hi == m * hi + hi;
    }
  }

  /** The mean of scores lying in `[lo, hi]` lies in `[lo, hi]`; so scores in
      `[0, 1]` give an overall confidence in `[0, 1]`. */
  lemma OverallConfidenceWithinBounds(ds: seq<Detection>, lo: real, hi: real)
    requires |ds| > 0
    requires forall d :: d in ds ==> lo <= d.confidence <= hi
    ensures lo <= OverallConfidence(ds) <= hi
  {
    SumConfidenceBounds(ds, lo, hi);
    var n := |ds| as real;
    var r := OverallConfidence(ds);
    assert r * n == SumConfidence(ds);
  }

  /** Scores 0.8 and 0.6 give 0.7; no detections give exactly 0.95. */
  lemma OverallConfidenceExamples()
    ensures OverallConfidence([]) == 0.95
    ensures OverallConfidence([
      Detection(Annotation, 1, Coordinates(0, 0, 0, 0), 0.8),
      Detection(Annotation, 1, Coordinates(0, 0, 0, 0), 0.6)]) == 0.7
  {
  }
}

=== FILE: label_mapping.dfy ===
/** Translation of the detector's free-text labels into the closed set of
    detection kinds: a case-insensitive substring lookup. */
module LabelMapping {
  import opened Wrappers
  import opened AnalysisTypes

  /** Lower-cases one character; only the ASCII letters A-Z change. */
  function LowerChar(c: char): (r: char)
    ensures 'A' <= c <= 'Z' ==> 'a' <= r <= 'z' && r as int - 'a' as int == c as int - 'A' as int
    ensures !('A' <= c <= 'Z') ==> r == c
  {
    if 'A' <= c <= 'Z' then (c as int - 'A' as int + 'a' as int) as char else c
  }

  /** `label.toLowerCase()`, restricted to ASCII letters. */
  function ToLower(s: string): (r: string)
    ensures |r| == |s|
    ensures forall i :: 0 <= i < |s| ==> r[i] == LowerChar(s[i])
  {
    if |s| == 0 then [] else [LowerChar(s[0])] + ToLower(s[1..])
  }

  /** `sub` is a prefix of `s`. */
  predicate StartsWith(s: string, sub: string) {
    |sub| <= |s| && s[..|sub|] == sub
  }

  /** `s.includes(sub)`: `sub` occurs in `s` at some position. */
  function Includes(s: string, sub: string): (r: bool)
    ensures r <==> exists i :: 0 <= i <= |s| && StartsWith(s[i..], sub)
    decreases |s|
  {
    if |sub| > |s| then
      assert forall i :: 0 <= i <= |s| ==> !StartsWith(s[i..], sub);
      false
    else if StartsWith(s, sub) then
      assert StartsWith(s[0..], sub);
      true
    else
      var rest := Includes(s[1..], sub);
      assert forall i :: 1 <= i <= |s| ==> s[i..] == s[1..][i - 1..];
      rest
  }

  /** `mapLabelToDetectionType`: a label naming a person or a hand becomes a
      handwritten signature (checked first), one naming a book or paper
      becomes an annotation, anything else is dropped. */
  function MapLabelToDetectionType(rawLabel: string): (r: Option<DetectionType>)
    ensures var lower := ToLower(rawLabel);
      (r == Some(HandwrittenSignature) <==>
         Includes(lower, "person") || Includes(lower, "hand")) &&
      (r == Some(Annotation) <==>
         !Includes(lower, "person") && !Includes(lower, "hand") &&
         (Includes(lower, "book") || Includes(lower, "paper"))) &&
      (r == None <==>
         !Includes(lower, "person") && !Includes(lower, "hand") &&
         !Includes(lower, "book") && !Includes(lower, "paper"))
    ensures r != Some(ElectronicSignature) && r != Some(Modification)
  {
    var lower := ToLower(rawLabel);
    if Includes(lower, "person") || Includes(lower, "hand") then
      Some(HandwrittenSignature)
    else if Includes(lower, "book") || Includes(lower, "paper") then
      Some(Annotation)
    else
      None
  }

  /** Lower-casing twice is lower-casing once. */
  lemma ToLowerIdempotent(s: string)
    ensures ToLower(ToLower(s)) == ToLower(s)
  {
  }

  /** The mapping ignores letter case: a label and its lower-cased form
      map to the same kind. */
  lemma MapLabelIsCaseInsensitive(rawLabel: string)
    ensures MapLabelToDetectionType(ToLower(rawLabel)) == MapLabelToDetectionType(rawLabel)
  {
    ToLowerIdempotent(rawLabel);
  }

  /** A label naming a person is read as a handwritten signature. */
  lemma PersonIsHandwritten()
    ensures MapLabelToDetectionType("person") == Some(HandwrittenSignature)
  {
  }

  /** The match is on substrings: "Handbag" contains "hand". */
  lemma HandbagIsHandwritten()
    ensures MapLabelToDetectionType("Handbag") == Some(HandwrittenSignature)
  {
  }

  /** A label naming a book is read as an annotation. */
  lemma BookIsAnnotation()
    ensures MapLabelToDetectionType("book") == Some(Annotation)
  {
  }

  /** A keyword whose first letter does not occur in `s` is not in `s`. */
  lemma FirstLetterAbsent(s: string, sub: string)
    requires |sub| > 0 && sub[0] !in s
    ensures !Includes(s, sub)
  {
  }

  /** A label none of whose lower-cased letters starts a keyword is dropped. */
  lemma DroppedWithoutKeywordInitials(rawLabel: string)
    requires forall i :: 0 <= i < |rawLabel| ==> LowerChar(rawLabel[i]) !in "phb"
    ensures MapLabelToDetectionType(rawLabel) == None
  {
    var lower := ToLower(rawLabel);
    assert 'p' !in lower && 'h' !in lower && 'b' !in lower;
    FirstLetterAbsent(lower, "person");
    FirstLetterAbsent(lower, "hand");
    FirstLetterAbsent(lower, "book");
    FirstLetterAbsent(lower, "paper");
  }

  /** A label outside the keyword vocabulary yields no detection. */
  lemma UnknownWidgetIsDropped()
    ensures MapLabelToDetectionType("unknown_widget") == None
  {
    DroppedWithoutKeywordInitials("unknown_widget");
  }
}

=== FILE: normalization.dfy ===
/** Conversion of one raw detector record into a `Detection`: label
    mapping, rounded coordinates and the score carried over. */
module Normalization {
  import opened Wrappers
  import opened AnalysisTypes
  import opened LabelMapping

  /** The corners of a detector box, in page pixels. */
  datatype Box = Box(xmin: real, ymin: real, xmax: real, ymax: real)

  /** One record as the object detector returns it. */
  datatype RawDetection = RawDetection(labelText: string, box: Box, score: real)

  /** `Math.round`: the nearest integer, halves rounded up. */
  function Round(x: real): (r: int)
    ensures x - 0.5 < r as real <= x + 0.5
  {
    (x + 0.5).Floor
  }

  /** Rounding preserves order. */
  lemma RoundMonotone(x: real, y: real)
    requires x <= y
    ensures Round(x) <= Round(y)
  {
  }

  /** The detection kept for one raw record on page `page`, or nothing
      when its label maps to no kind. */
  function NormalizeDetection(raw: RawDetection, page: int): (r: Option<Detection>)
    ensures r.None? <==> MapLabelToDetectionType(raw.labelText).None?
    ensures r.Some? ==> r.value.kind == MapLabelToDetectionType(raw.labelText).value
    ensures r.Some? ==> r.value.page == page && r.value.confidence == raw.score
    ensures r.Some? ==> r.value.coordinates == Coordinates(
      Round(raw.box.xmin), Round(raw.box.ymin),
      Round(raw.box.xmax - raw.box.xmin), Round(raw.box.ymax - raw.box.ymin))
  {
    match MapLabelToDetectionType(raw.labelText)
    case None => None
    case Some(kind) =>
      Some(Detection(
        kind, page,
        Coordinates(
          Round(raw.box.xmin), Round(raw.box.ymin),
          Round(raw.box.xmax - raw.box.xmin), Round(raw.box.ymax - raw.box.ymin)),
        raw.score))
  }

  /** Each rounded extent (width and height) is within half a pixel of the
      box's extent, and is non-negative when the box is well-formed. */
  lemma NormalizedExtent(raw: RawDetection, page: int)
    requires NormalizeDetection(raw, page).Some?
    ensures var c := NormalizeDetection(raw, page).value.coordinates;
      && (c.width as real - (raw.box.xmax - raw.box.xmin)) * 2.0 <= 1.0
      && ((raw.box.xmax - raw.box.xmin) - c.width as real) * 2.0 < 1.0
      && (c.height as real - (raw.box.ymax - raw.box.ymin)) * 2.0 <= 1.0
      && ((raw.box.ymax - raw.box.ymin) - c.height as real) * 2.0 < 1.0
      && (raw.box.xmin <= raw.box.xmax ==> c.width >= 0)
      && (raw.box.ymin <= raw.box.ymax ==> c.height >= 0)
  {
  }

  /** The detections of one page: every raw record normalised, in detector
      order, the dropped ones left out. */
  function NormalizeAll(results: seq<RawDetection>, page: int): (r: seq<Detection>)
    ensures |r| <= |results|
    ensures forall d :: d in r ==>
      d.page == page && (d.kind == HandwrittenSignature || d.kind == Annotation)
    ensures forall d :: d in r <==>
      exists i :: 0 <= i < |results| && NormalizeDetection(results[i], page) == Some(d)
  {
    if |results| == 0 then []
    else
      assert forall i :: 0 <= i < |results| - 1 ==> results[..|results| - 1][i] == results[i];
      var prefix := NormalizeAll(results[..|results| - 1], page);
      match NormalizeDetection(results[|results| - 1], page)
      case None => prefix
      case Some(d) => prefix + [d]
  }

  /** Normalising a concatenation normalises each part. */
  lemma {:induction false} NormalizeAllAppend(a: seq<RawDetection>, b: seq<RawDetection>, page: int)
    ensures NormalizeAll(a + b, page) == NormalizeAll(a, page) + NormalizeAll(b, page)
    decreases |b|
  {
    if |b| > 0 {
      var b' := b[..|b| - 1];
      assert (a + b)[..|a + b| - 1] == a + b';
      assert (a + b)[|a + b| - 1] == b[|b| - 1];
      NormalizeAllAppend(a, b', page);
    } else {
      assert a + b == a;
    }
  }

  /** A record whose label maps to no kind is dropped without disturbing the
      records around it. */
  lemma DroppedRecordIsSkipped(a: seq<RawDetection>, x: RawDetection, b: seq<RawDetection>,
                               page: int)
    requires MapLabelToDetectionType(x.labelText).None?
    ensures NormalizeAll(a + [x] + b, page) == NormalizeAll(a, page) + NormalizeAll(b, page)
  {
    assert [x][..0] == [];
    NormalizeAllAppend(a, [x], page);
    NormalizeAllAppend(a + [x], b, page);
  }
}

=== FILE: wrappers.dfy ===
/** Failure-carrying values used where the analysis service returns `null`
    or throws. */
module Wrappers {

  /** A value that may be absent (`T | null` in the service). */
  datatype Option<+T> = None | Some(value: T)

  /** The outcome of an operation that either produces a value or throws. */
  datatype Result<+R, +E> = Success(value: R) | Failure(error: E)
}
